=== FILE: README.md ===
# Site presentation logic of `js/main.js`, modelled in Dafny

The site's single script drives a few pieces of presentation state. This project
models the parts of that state which follow rules, and proves what those rules
guarantee:

- **Hero slider** (`initHeroSlider`, module `HeroSlider`). The closure variable
  `currentSlide` ranges over a deck of four slides. The slide strip is shifted by
  `-currentSlide * 100` percent, and each `.nav-dot` carries `active` exactly when
  it is the current slide. The state is a class `Slider` with a `dots` array.
  - `Next`, `Previous` and `GoTo` change the index.
  - Each of them ends in `Update`, which is `updateSlider` with its loop over the dots.
  - JavaScript's `%` truncates toward zero, so it is modelled explicitly
    (`JsRemainder`). This matters once `goToSlide` has stored an index outside the
    deck.
- **Theme** (module `Theme`). At load the `data-theme` attribute takes the saved
  theme, or `dark`. A click flips `dark` to `light` and anything else to `dark`, and
  writes the new value to the attribute and to storage.
- **Header** (`initHeaderScroll`, module `Header`). On scroll the header gets a
  shadow exactly when `scrollY > 100`. Above the threshold it is also pinned, and
  nothing ever unpins it.
- **Counters** (`animateCounters`, module `Counter`). A counter's target is
  `parseInt` of its text. On each animation frame the text becomes
  `floor(min(elapsed / 2000, 1) * target)` followed by a marker: `+`, `%`, `/7` or
  nothing. The marker is chosen from the text currently shown. Another frame is
  requested while the progress is below 1.
  - `parseInt` is modelled in full: leading white space, sign, `0x` prefix,
    longest digit run.
  - `NaN` is `None`, and it renders as `NaN`.
- **Reveal** (`initScrollAnimations`, module `Reveal`). The observer callback adds
  `animate-in` to every element reported in view. For the services grid it also
  starts one timer per card, with delay `index * 150`.

## Model

| member | source | states |
|---|---|---|
| HeroSlider.JsRemainder | js/main.js:88 | the remainder has the dividend's sign and magnitude below the deck size, as JavaScript's `%` does |
| HeroSlider.JsRemainderCongruent | js/main.js:88 | the remainder differs from the dividend by a multiple of four |
| HeroSlider.NextIndex | js/main.js:87-90 | on an in-range index, the successor with wrap from 3 to 0; any index from -1 up lands in range |
| HeroSlider.PreviousIndex | js/main.js:92-95 | on an in-range index, the predecessor with wrap from 0 to 3; any index from -3 up lands in range |
| HeroSlider.Advance | js/main.js:87-90 | repeated `nextSlide` keeps an in-range index in range, and after at least one step any index from -1 up is in range |
| HeroSlider.AdvanceFromFirst | js/main.js:87-90 | starting from slide 0, n calls of `nextSlide` give index n mod 4 |
| HeroSlider.PreviousUndoesNext | js/main.js:87-95 | `previousSlide` after `nextSlide` restores any in-range index |
| HeroSlider.NextUndoesPrevious | js/main.js:87-95 | `nextSlide` after `previousSlide` restores any in-range index |
| HeroSlider.OutOfRangeBreaksInverse | js/main.js:88-98 | after `goToSlide(5)`, next then previous gives 1, not 5: the inverse law needs an in-range index |
| HeroSlider.NextKeepsNegative | js/main.js:88 | from a negative index below -1 (not one before a multiple of four), `nextSlide` stays negative, because of the truncating `%` |
| HeroSlider.MirrorsCount | js/main.js:82-84 | dots mirroring index k have exactly one active dot when k names a dot, and none otherwise |
| HeroSlider.Slider.constructor | js/main.js:74-77 | index 0, no offset, dots as in the markup; the mirror invariant holds only if the markup already marks dot 0 |
| HeroSlider.Slider.Update | js/main.js:79-85 | offset is `-currentSlide * 100`, every dot mirrors the index, the index is unchanged, and the active count is 1 exactly for an index naming a dot |
| HeroSlider.Slider.Next | js/main.js:87-90 | the new index is the wrapped successor, the view mirrors it, and an in-range index stays in range |
| HeroSlider.Slider.Previous | js/main.js:92-95 | the new index is the wrapped predecessor, the view mirrors it, and an in-range index stays in range |
| HeroSlider.Slider.GoTo | js/main.js:97-100 | the index becomes exactly `index` with no check; with four dots, exactly one dot is active iff `0 <= index < 4` |
| HeroSlider.Ticks | js/main.js:87-90 | k firings of the `setInterval` timer (line 107) from any state leave the index k successors away, and after one firing the view mirrors it |
| HeroSlider.PreviousThenTicks | js/main.js:92-95 | from slide 0, a manual `previousSlide` and five timer ticks of `nextSlide` (line 107) return to slide 0 with a consistent view |
| Theme.InitialTheme | js/main.js:8-9 | the saved theme when it is non-empty, else `dark`; never empty |
| Theme.Toggled | js/main.js:12-13 | the result is `dark` or `light`, and it is `light` exactly when the current theme is `dark` |
| Theme.ToggleTwice | js/main.js:11-16 | two toggles from `dark` or `light` give back the original theme |
| Theme.ToggleNormalises | js/main.js:11-16 | any other theme goes to `dark`, then `light`, and never comes back |
| Theme.ToggleSurvivesReload | js/main.js:8-16 | the value a toggle stores is the theme the next load shows |
| Theme.ThemeController.constructor | js/main.js:8-9 | the attribute is the initial theme, and storage is left as it was |
| Theme.ThemeController.Toggle | js/main.js:11-16 | the attribute becomes the toggled theme, and storage holds the same value |
| Header.OnScroll | js/main.js:60-66 | shadow iff `scrollY > 100`; pinned iff it already was or `scrollY > 100` |
| Header.AfterScrolls | js/main.js:60-66 | over a run of scrolls a pinned header stays pinned, and after any scroll a shadow comes only with the pin |
| Header.AfterScrollsState | js/main.js:60-66 | after a run of scrolls, the shadow follows the last position only; the header is pinned iff it was already or some position passed 100 |
| Header.PageLoadHeader | js/main.js:58-66 | from page load, the header never has a shadow without the pin, and it is pinned iff some scroll position passed 100 |
| Counter.TrimStart | js/main.js:253 | the result is a suffix of the text, everything removed before it is white space, and it does not start with white space |
| Counter.TrimStartStops | js/main.js:253 | text starting with another character is left as it is |
| Counter.TrimStartSkips | js/main.js:253 | skipping white space in front of any text gives what skipping it in that text gives |
| Counter.DigitPrefixIsLongest | js/main.js:253 | the digit run `parseInt` reads is a prefix of the text, all digits of the radix, and is followed by a non-digit or the end |
| Counter.ParseMagnitude | js/main.js:253 | a number is read only from non-empty text; the values read are stated by `ParseMagnitudeDecimal`, `ParseMagnitudeHex` and `ParseMagnitudeNoDigit` |
| Counter.DigitPrefixOfRun | js/main.js:253 | in any radix, the digit run read from digits followed by a non-digit (or nothing) is exactly those digits |
| Counter.ParseMagnitudeDecimal | js/main.js:253 | decimal digits, leading zeros included, followed by any ending that is not another digit (and not `x`/`X` after a lone `0`), read as the value of all the digits; so `10x` reads as 10 |
| Counter.ParseMagnitudeHex | js/main.js:253 | after `0x` or `0X` the hexadecimal digits are read in radix 16, and a prefix with no hexadecimal digit after it is `NaN` |
| Counter.ParseMagnitudeNoDigit | js/main.js:253 | text not starting with a decimal digit holds no number (`NaN`) |
| Counter.ParseIntSkipsWhiteSpace | js/main.js:253 | leading white space never changes what `parseInt` reads |
| Counter.ParseIntAfterWhiteSpace | js/main.js:253 | after white space, `parseInt` reads the signed number starting at the first other character |
| Counter.ParseIntDecimal | js/main.js:253 | white space then decimal digits (leading zeros allowed) and any such ending read as the digits' value |
| Counter.ParseIntPlusDecimal | js/main.js:253 | the same with a `+` before the digits |
| Counter.ParseIntNegativeDecimal | js/main.js:253 | the same with a `-` before the digits gives the negated value |
| Counter.ParseIntNoNumber | js/main.js:253 | text that, after white space, starts with neither a sign nor a decimal digit is `NaN` |
| Counter.NatToString | js/main.js:262 | the decimal text of a number is non-empty and has no leading zero: for a positive number it does not start with `0`, and `0` is the single digit `0` |
| Counter.NatToStringDigits | js/main.js:262 | the decimal text of a number is non-empty and all digits |
| Counter.DigitsOfNat | js/main.js:253-262 | reading back the decimal digits of n gives n |
| Counter.ParseMagnitudeOfDigits | js/main.js:253 | the unsigned reader returns n from the digits of n followed by any ending that is not a digit or `x` |
| Counter.ParseNatRendered | js/main.js:253-262 | `parseInt` of a non-negative number's text followed by such an ending is that number |
| Counter.ParseNegativeRendered | js/main.js:253-262 | `parseInt` of a negative number's text followed by such an ending is that number |
| Counter.ParseRendered | js/main.js:253-262 | `parseInt` reads back the number a frame wrote, for every integer and every marker-like ending |
| Counter.IntToString | js/main.js:262 | the text of an integer is non-empty and starts with `-` or a digit, and with `-` exactly when the integer is negative |
| Counter.Render | js/main.js:261-262 | the counter shows `NaN` exactly when the target did not parse |
| Counter.IncludesMeansIn | js/main.js:262 | `includes` finds a character exactly when it occurs in the text |
| Counter.IncludesConcat | js/main.js:262 | a character occurs in a concatenation iff it occurs in one of the parts |
| Counter.Suffix | js/main.js:262 | the marker is always one of `+`, `%`, `/7` or nothing |
| Counter.SuffixPriority | js/main.js:262 | the marker is `+` iff the text has `+`; `%` iff `%` but no `+`; `/7` iff `/` but neither; empty iff none of the three |
| Counter.MarkerIsOwnSuffix | js/main.js:262 | each marker read back on its own selects itself |
| Counter.NatToStringUnmarked | js/main.js:262 | decimal digits contain no marker character |
| Counter.RenderUnmarked | js/main.js:261-262 | a rendered frame value, including `NaN`, contains no marker character |
| Counter.SuffixFixedPoint | js/main.js:262 | the marker read from the text a frame wrote is the marker that frame used |
| Counter.FrameValue | js/main.js:258-261 | `NaN` stays `NaN`, and from 2000 ms on the value is exactly the target |
| Counter.FrameValueIsFloor | js/main.js:259-261 | before 2000 ms the value is the floor of `elapsed * target / 2000` |
| Counter.FrameValueMonotone | js/main.js:258-261 | for a target of 0 or more the value never decreases as time passes |
| Counter.FrameValueBounded | js/main.js:258-261 | for a target of 0 or more and time since the start, the value stays between 0 and the target |
| Counter.Continues | js/main.js:264 | a frame that requests no further frame shows the exact target, whatever the target |
| Counter.FrameText | js/main.js:262 | the text a frame writes carries the same marker as the text it replaced |
| Counter.FinalFrameRestoresText | js/main.js:253-262 | a counter showing a number with a marker ends its animation showing exactly its original text |
| Counter.RedrawStable | js/main.js:262 | drawing over a previous frame's text equals drawing over the original text |
| Counter.RunFrames | js/main.js:257-269 | frames are drawn while the progress is below 1 and stop after the first frame at or past 2000 ms; the text shown is the last drawn value with the original marker |
| Counter.Animate | js/main.js:252-269 | the marker is preserved; once any frame reaches 2000 ms the counter shows the parsed target with the original marker |
| Reveal.StaggerDelay | js/main.js:154 | a card's delay is a whole number of 150 ms steps, and that number is the card's index |
| Reveal.GridTimers | js/main.js:150-155 | one timer per card of the grid |
| Reveal.Scheduled | js/main.js:144-155 | every timer scheduled for a batch of entries waits its card's stagger delay; with `ScheduledTimersValid` and `ScheduledComplete`, the schedule holds a timer for exactly the cards of the grids reported in view |
| Reveal.ReportedStep | js/main.js:144-146 | one more entry reports an element in view exactly when the earlier entries did or the new entry does |
| Reveal.OnIntersection | js/main.js:143-158 | the reveal flags only go from false to true; an element is revealed after the batch iff it was already or some entry reports it in view; the started timers are the schedule of the batch |
| Reveal.ScheduledComplete | js/main.js:145-155 | every card of a services grid that some entry reports in view gets a timer with that card's stagger delay |
| Reveal.ScheduledTimersValid | js/main.js:145-155 | every started timer targets a card of a services grid that an entry reported in view, with delay card index times 150 |
| Reveal.StaggerOrdered | js/main.js:151-154 | the first card waits 0 ms, each next card waits 150 ms more, and the delays strictly increase in document order |
| Reveal.CardsShownAt | js/main.js:151-154 | one reveal flag per card |
| Reveal.CardsRevealInOrder | js/main.js:151-154 | a card is revealed exactly once its own delay has passed, revealed cards always form a prefix in document order, the prefix only grows, and after `(count - 1) * 150` ms all cards are revealed |

## Left out

- Timer and frame scheduling (`setInterval` for the slider, `setTimeout` for the cards, `requestAnimationFrame` for the counters) is browser event-loop machinery.
  - The slider's ticks are plain calls of `Next`.
  - Card timers are `Timer` values carrying their delay.
  - Frames are a sequence of elapsed times given to `RunFrames`.
- `IntersectionObserver` construction, its options, `observe` and `unobserve` are browser APIs. The callback is modelled over a batch of entries naming observed elements by index.
  - A counter is animated once: `Animate` models one run, not repeated observation.
- `localStorage` and DOM attribute I/O are fields of `ThemeController`. The header's and the slider's inline styles are fields or booleans, and the dots' `active` class is a `bool` array.
- Particles, scroll progress, smooth scrolling, the slides' hover scaling, the loading bar, the hero entrance animation, `throttle` and the two form simulators are DOM or CSS side effects, random numbers or floating-point ratios with no rule to verify. They are not part of this model.
- Reveal.CardsShownAt assumes each card's `setTimeout` fires exactly at its delay. A browser only promises not to fire earlier, so in a busy or background tab a card can appear later than `index * 150` ms. In `CardsRevealInOrder`, "a card is revealed once its delay has passed" and "all cards revealed after `(count - 1) * 150` ms" hold only under that idealisation; "no card before its delay" holds in any case.
- Counter.FrameValue: time is whole milliseconds and arithmetic is exact. The floating-point rounding of `elapsed / duration * target` and fractional `performance.now()` timestamps are not modelled.
- Counter.ParseInt: integers are unbounded. Precision loss past 2^53 and the exponent notation `String` uses for large numbers are not modelled.
- Counter.IsJsWhiteSpace lists the white-space and line-terminator characters of ECMAScript. Characters outside the Basic Multilingual Plane play no part, because none is white space.
- Header.OnScroll: `scrollY` is a whole number. Fractional scroll offsets are not modelled.
- HeroSlider.Slider.constructor: the number of dots comes from the markup, as `querySelectorAll('.nav-dot')` does, and the page is not assumed to hold four. `GoTo` states the single-active-dot property for a four-dot page.
- HeroSlider.Slider.GoTo takes an integer index. `goToSlide` accepts any value, and a fractional or non-numeric argument behaves differently: `goToSlide(1.5)` leaves no dot active and later steps move to 2.5. Such arguments are not modelled.
- HeroSlider.Slider.GoTo has no precondition, like `goToSlide`. The slider invariant `0 <= currentSlide < 4` is therefore not a class invariant. It is carried by `Next` and `Previous` as "in range before implies in range after", and `OutOfRangeBreaksInverse` and `NextKeepsNegative` show what an out-of-range index does.

=== FILE: counter.dfy ===
/** `animateCounters` (js/main.js): each counter reads a target from its text, then
    redraws its text on every animation frame for two seconds, keeping a trailing
    marker taken from the text it shows. */
module Counter {
  import opened Optional

  /** `duration`, in milliseconds. */
  const Duration: int := 2000

  // ---------------------------------------------------------------------------
  // parseInt with no radix argument

  /** The white-space and line-terminator characters `parseInt` skips before a number. */
  predicate IsJsWhiteSpace(c: char) {
    c == '\t' || c == '\n' || c == '\U{B}' || c == '\U{C}' || c == '\r' || c == ' ' ||
    c == '\U{A0}' || c == '\U{1680}' || ('\U{2000}' <= c <= '\U{200A}') ||
    c == '\U{2028}' || c == '\U{2029}' || c == '\U{202F}' || c == '\U{205F}' ||
    c == '\U{3000}' || c == '\U{FEFF}'
  }

  /** Text made of white space only. */
  predicate AllWhiteSpace(w: string) {
    forall i :: 0 <= i < |w| ==> IsJsWhiteSpace(w[i])
  }

  /** The text with its leading white space removed. */
  function TrimStart(s: string): (t: string)
    ensures t == [] || !IsJsWhiteSpace(t[0])
    ensures |t| <= |s| && t == s[|s| - |t|..]
    ensures AllWhiteSpace(s[..|s| - |t|])
  {
    if s != [] && IsJsWhiteSpace(s[0]) then TrimStart(s[1..]) else s
  }

  /** The value of a digit in radix up to 36; 36 for any other character. */
  function DigitValue(c: char): (d: nat)
    ensures d <= 36
  {
    if '0' <= c <= '9' then c as int - '0' as int
    else if 'a' <= c <= 'z' then c as int - 'a' as int + 10
    else if 'A' <= c <= 'Z' then c as int - 'A' as int + 10
    else 36
  }

  /** The longest prefix of `s` made of digits of the given radix. */
  function DigitPrefix(s: string, radix: nat): string {
    if s != [] && DigitValue(s[0]) < radix then [s[0]] + DigitPrefix(s[1..], radix) else []
  }

  /** The run `parseInt` reads is a prefix of the text, made of digits only, and
      stops at the first non-digit: it is the longest such prefix. */
  lemma {:induction false} DigitPrefixIsLongest(s: string, radix: nat)
    ensures |DigitPrefix(s, radix)| <= |s|
    ensures DigitPrefix(s, radix) == s[..|DigitPrefix(s, radix)|]
    ensures forall i :: 0 <= i < |DigitPrefix(s, radix)| ==> DigitValue(DigitPrefix(s, radix)[i]) < radix
    ensures |DigitPrefix(s, radix)| < |s| ==> DigitValue(s[|DigitPrefix(s, radix)|]) >= radix
  {
    if s != [] && DigitValue(s[0]) < radix {
      DigitPrefixIsLongest(s[1..], radix);
    }
  }

  /** The number the digits `z` denote in the given radix, most significant first. */
  function DigitsValue(z: string, radix: nat): nat {
    if z == [] then 0
    else DigitsValue(z[..|z| - 1], radix) * radix + DigitValue(z[|z| - 1])
  }

  /** `parseInt(text)`: skip white space, then read a signed number; `NaN` is None. */
  function ParseInt(text: string): Option<int> {
    ParseSigned(TrimStart(text))
  }

  /** A number after the white space: one `-` negates, one `+` is dropped, and the
      rest is read by the unsigned reader. */
  function ParseSigned(t: string): Option<int> {
    if t != [] && t[0] == '-' then
      match ParseMagnitude(t[1..])
      case None => None
      case Some(m) => Some(-(m as int))
    else
      ParseMagnitude(if t != [] && t[0] == '+' then t[1..] else t)
  }

  /** Whether the text starts with `0x` or `0X`. */
  predicate HexPrefixed(rest: string) {
    |rest| >= 2 && rest[0] == '0' && (rest[1] == 'x' || rest[1] == 'X')
  }

  /** The unsigned part of `parseInt`: a `0x`/`0X` prefix selects radix 16, then the
      longest run of digits is read; no digit at all is `NaN` (None). */
  function ParseMagnitude(rest: string): (m: Option<nat>)
    ensures m.Some? ==> rest != []
  {
    if HexPrefixed(rest) then ReadDigits(rest[2..], 16) else ReadDigits(rest, 10)
  }

  /** The value of the longest run of digits of the radix at the start of `s`; None
      when there is no such digit. */
  function ReadDigits(s: string, radix: nat): Option<nat> {
    var z := DigitPrefix(s, radix);
    if z == [] then None else Some(DigitsValue(z, radix))
  }

  // ---------------------------------------------------------------------------
  // Number to text

  function DigitChar(d: nat): (c: char)
    requires d < 10
    ensures '0' <= c <= '9' && DigitValue(c) == d
  {
    ('0' as int + d) as char
  }

  /** The decimal digits of `n`, as `String(n)` writes a non-negative integer. */
  function NatToString(n: nat): (s: string)
    ensures s != []
    ensures n > 0 ==> s[0] != '0'
    ensures |s| == 1 || s[0] != '0'
  {
    if n < 10 then [DigitChar(n)] else NatToString(n / 10) + [DigitChar(n % 10)]
  }

  /** `String(n)` writes at least one character, every one a decimal digit. */
  lemma {:induction false} NatToStringDigits(n: nat)
    ensures NatToString(n) != []
    ensures forall i :: 0 <= i < |NatToString(n)| ==> '0' <= NatToString(n)[i] <= '9'
  {
    if n >= 10 {
      NatToStringDigits(n / 10);
    }
  }

  /** `String(n)` for an integer: a minus sign before the digits when negative. */
  function IntToString(n: int): (s: string)
    ensures s != [] && (s[0] == '-' || '0' <= s[0] <= '9')
    ensures s[0] == '-' <==> n < 0
  {
    NatToStringDigits(if n < 0 then -n else n);
    if n < 0 then "-" + NatToString(-n) else NatToString(n)
  }

  /** What the counter shows for a frame value; `NaN` when the target did not parse. */
  function Render(v: Option<int>): (s: string)
    ensures s == "NaN" <==> v.None?
  {
    match v
    case None => "NaN"
    case Some(n) => IntToString(n)
  }

  // ---------------------------------------------------------------------------
  // Frames

  /** `text.includes(c)` for a one-character search string. */
  function Includes(text: string, c: char): bool {
    if text == [] then false else text[0] == c || Includes(text[1..], c)
  }

  /** `includes` finds a character exactly when it occurs in the text. */
  lemma {:induction false} IncludesMeansIn(text: string, c: char)
    ensures Includes(text, c) <==> c in text
  {
    if text != [] {
      IncludesMeansIn(text[1..], c);
      assert text == [text[0]] + text[1..];
    }
  }

  /** A character occurs in a concatenation exactly when it occurs in one of the parts. */
  lemma {:induction false} IncludesConcat(a: string, b: string, c: char)
    ensures Includes(a + b, c) <==> Includes(a, c) || Includes(b, c)
  {
    if a == [] {
      assert a + b == b;
    } else {
      assert (a + b)[0] == a[0];
      assert (a + b)[1..] == a[1..] + b;
      IncludesConcat(a[1..], b, c);
    }
  }

  /** The marker kept after the number: `+` wins over `%`, which wins over any `/`
      (shown as `/7`); no marker otherwise. */
  function Suffix(text: string): (m: string)
    ensures IsMarker(m)
  {
    if Includes(text, '+') then "+"
    else if Includes(text, '%') then "%"
    else if Includes(text, '/') then "/7"
    else ""
  }

  /** The marker is one of four, each chosen exactly when the text has the matching
      character and none of higher priority. */
  lemma {:induction false} SuffixPriority(text: string)
    ensures IsMarker(Suffix(text))
    ensures Suffix(text) == "+" <==> '+' in text
    ensures Suffix(text) == "%" <==> '+' !in text && '%' in text
    ensures Suffix(text) == "/7" <==> '+' !in text && '%' !in text && '/' in text
    ensures Suffix(text) == "" <==> '+' !in text && '%' !in text && '/' !in text
  {
    IncludesMeansIn(text, '+');
    IncludesMeansIn(text, '%');
    IncludesMeansIn(text, '/');
  }

  /** `Math.floor(Math.min(elapsed / duration, 1) * target)`, with `elapsed` in whole
      milliseconds; `NaN` stays `NaN`. Dafny's `/` by a positive divisor is the floor. */
  function FrameValue(target: Option<int>, elapsed: int): (v: Option<int>)
    ensures v.None? <==> target.None?
    ensures target.Some? && elapsed >= Duration ==> v == target
  {
    match target
    case None => None
    case Some(t) => if elapsed >= Duration then Some(t) else Some((elapsed * t) / Duration)
  }

  /** Before the end of the animation the frame value is the floor of the exact
      fraction `elapsed * target / duration`. */
  lemma {:induction false} FrameValueIsFloor(target: int, elapsed: int)
    requires elapsed < Duration
    ensures FrameValue(Some(target), elapsed).value * Duration <= elapsed * target
    ensures elapsed * target < (FrameValue(Some(target), elapsed).value + 1) * Duration
  {
  }

  /** `progress < 1`: another frame is requested. */
  predicate Continues(elapsed: int)
    ensures !Continues(elapsed) ==> forall t :: FrameValue(Some(t), elapsed) == Some(t)
  {
    elapsed < Duration
  }

  /** The text written by one frame: the frame value followed by the marker read from
      the text currently shown. */
  function FrameText(shown: string, target: Option<int>, elapsed: int): (t: string)
    ensures Suffix(t) == Suffix(shown)
  {
    SuffixFixedPoint(FrameValue(target, elapsed), shown);
    Render(FrameValue(target, elapsed)) + Suffix(shown)
  }

  // ---------------------------------------------------------------------------
  // Properties

  /** Each marker, read back on its own, selects itself. */
  lemma {:induction false} MarkerIsOwnSuffix(m: string)
    requires IsMarker(m)
    ensures Suffix(m) == m
  {
    SuffixPriority(m);
  }

  /** A text that includes none of the three marker characters. */
  predicate Unmarked(text: string) {
    !Includes(text, '+') && !Includes(text, '%') && !Includes(text, '/')
  }

  lemma {:induction false} NatToStringUnmarked(n: nat)
    ensures Unmarked(NatToString(n))
  {
    var s := NatToString(n);
    NatToStringDigits(n);
    IncludesMeansIn(s, '+');
    IncludesMeansIn(s, '%');
    IncludesMeansIn(s, '/');
  }

  /** A rendered frame value never includes a marker character. */
  lemma {:induction false} RenderUnmarked(v: Option<int>)
    ensures Unmarked(Render(v))
  {
    match v
    case None =>
      IncludesMeansIn("NaN", '+');
      IncludesMeansIn("NaN", '%');
      IncludesMeansIn("NaN", '/');
    case Some(n) =>
      if n < 0 {
        NatToStringUnmarked(-n);
        IncludesConcat("-", NatToString(-n), '+');
        IncludesConcat("-", NatToString(-n), '%');
        IncludesConcat("-", NatToString(-n), '/');
      } else {
        NatToStringUnmarked(n);
      }
  }

  /** The marker is a fixed point of the redraw: reading it back from the text a frame
      wrote gives the marker that frame used. */
  lemma {:induction false} SuffixFixedPoint(v: Option<int>, shown: string)
    ensures Suffix(Render(v) + Suffix(shown)) == Suffix(shown)
  {
    var r := Render(v);
    var s := Suffix(shown);
    SuffixPriority(shown);
    MarkerIsOwnSuffix(s);
    RenderUnmarked(v);
    IncludesConcat(r, s, '+');
    IncludesConcat(r, s, '%');
    IncludesConcat(r, s, '/');
  }

  /** Frame values never decrease over time when the target is not negative. */
  lemma {:induction false} FrameValueMonotone(target: int, e1: int, e2: int)
    requires target >= 0 && e1 <= e2
    ensures FrameValue(Some(target), e1).value <= FrameValue(Some(target), e2).value
  {
    if e2 < Duration {
      MulMonotone(e1, e2, target);
    } else if e1 < Duration {
      MulMonotone(e1, Duration, target);
    }
  }

  /** From the start of the animation the shown value stays between 0 and the target. */
  lemma {:induction false} FrameValueBounded(target: int, elapsed: int)
    requires target >= 0 && elapsed >= 0
    ensures 0 <= FrameValue(Some(target), elapsed).value <= target
  {
    FrameValueMonotone(target, 0, elapsed);
    if elapsed < Duration {
      FrameValueMonotone(target, elapsed, Duration);
    }
  }

  lemma MulMonotone(a: int, b: int, c: int)
    requires a <= b && c >= 0
    ensures a * c <= b * c
  {
  }

  /** Parsing the digits of `n` gives back `n`. */
  lemma {:induction false} DigitsOfNat(n: nat)
    ensures DigitsValue(NatToString(n), 10) == n
  {
    if n >= 10 {
      DigitsOfNat(n / 10);
      var s := NatToString(n);
      assert s[..|s| - 1] == NatToString(n / 10);
    }
  }

  /** Text that stops a run of decimal digits and cannot complete a `0x` prefix. */
  predicate EndsNumber(suffix: string) {
    suffix == [] || (DigitValue(suffix[0]) >= 10 && suffix[0] != 'x' && suffix[0] != 'X')
  }

  /** The longest prefix of radix digits of a digit run followed by a non-digit (or
      nothing) is that run. */
  lemma {:induction false} DigitPrefixOfRun(z: string, e: string, radix: nat)
    requires forall i :: 0 <= i < |z| ==> DigitValue(z[i]) < radix
    requires e == [] || DigitValue(e[0]) >= radix
    ensures DigitPrefix(z + e, radix) == z
  {
    if z != [] {
      DigitPrefixOfRun(z[1..], e, radix);
      assert (z + e)[1..] == z[1..] + e;
    }
  }

  /** What may follow the decimal digits `z` so that they are read as they stand: no
      further decimal digit, and no `x`/`X` right after a lone `0` (that would be a
      hexadecimal prefix). */
  predicate DecimalEnding(z: string, e: string) {
    (e == [] || DigitValue(e[0]) >= 10) && !(z == "0" && e != [] && (e[0] == 'x' || e[0] == 'X'))
  }

  /** Decimal digits, leading zeros included, followed by an ending: the unsigned reader
      returns the value of all the digits. */
  lemma {:induction false} ParseMagnitudeDecimal(z: string, e: string)
    requires z != [] && forall i :: 0 <= i < |z| ==> '0' <= z[i] <= '9'
    requires DecimalEnding(z, e)
    ensures ParseMagnitude(z + e) == Some(DigitsValue(z, 10))
  {
    var rest := z + e;
    DigitPrefixOfRun(z, e, 10);
    if |rest| >= 2 {
      if |z| >= 2 {
        assert rest[1] == z[1];
      } else if rest[0] == '0' {
        assert z == "0";
        assert rest[1] == e[0];
      }
    }
  }

  /** A `0x` or `0X` prefix switches to radix 16: the hexadecimal digits after it are
      read, and a prefix with no hexadecimal digit after it is `NaN`. */
  lemma {:induction false} ParseMagnitudeHex(x: char, h: string, e: string)
    requires x == 'x' || x == 'X'
    requires forall i :: 0 <= i < |h| ==> DigitValue(h[i]) < 16
    requires e == [] || DigitValue(e[0]) >= 16
    ensures ParseMagnitude(['0', x] + h + e) == if h == [] then None else Some(DigitsValue(h, 16))
  {
    var rest := ['0', x] + h + e;
    assert HexPrefixed(rest);
    assert rest[2..] == h + e;
    DigitPrefixOfRun(h, e, 16);
    assert ReadDigits(h + e, 16) == if h == [] then None else Some(DigitsValue(h, 16));
  }

  /** Text that does not start with a decimal digit holds no number for the unsigned
      reader. */
  lemma {:induction false} ParseMagnitudeNoDigit(rest: string)
    requires rest == [] || DigitValue(rest[0]) >= 10
    ensures ParseMagnitude(rest) == None
  {
  }

  /** The unsigned reader takes back the digits of `n`, whatever ending follows. */
  lemma {:induction false} ParseMagnitudeOfDigits(n: nat, suffix: string)
    requires EndsNumber(suffix)
    ensures ParseMagnitude(NatToString(n) + suffix) == Some(n)
  {
    NatToStringDigits(n);
    DigitsOfNat(n);
    ParseMagnitudeDecimal(NatToString(n), suffix);
  }

  /** Leading white space skipping stops at the first other character. */
  lemma {:induction false} TrimStartStops(s: string)
    requires s != [] && !IsJsWhiteSpace(s[0])
    ensures TrimStart(s) == s
  {
  }

  /** `parseInt` reads back the digits `String` wrote for a non-negative number. */
  lemma {:induction false} ParseNatRendered(n: int, suffix: string)
    requires n >= 0 && EndsNumber(suffix)
    ensures ParseInt(IntToString(n) + suffix) == Some(n)
  {
    var text := IntToString(n) + suffix;
    assert text == NatToString(n) + suffix;
    NatToStringDigits(n);
    assert '0' <= text[0] <= '9' by { assert text[0] == NatToString(n)[0]; }
    TrimStartStops(text);
    ParseMagnitudeOfDigits(n, suffix);
  }

  /** `parseInt` reads back the sign and digits `String` wrote for a negative number. */
  lemma {:induction false} ParseNegativeRendered(n: int, suffix: string)
    requires n < 0 && EndsNumber(suffix)
    ensures ParseInt(IntToString(n) + suffix) == Some(n)
  {
    var y := NatToString(-n) + suffix;
    var text := "-" + y;
    assert IntToString(n) + suffix == text;
    assert text[0] == '-' && text[1..] == y;
    ParseMagnitudeOfDigits(-n, suffix);
    assert ParseSigned(text) == Some(n);
    TrimStartStops(text);
  }

  /** `parseInt` reads back what `String` wrote, whatever marker follows. */
  lemma {:induction false} ParseRendered(n: int, suffix: string)
    requires EndsNumber(suffix)
    ensures ParseInt(IntToString(n) + suffix) == Some(n)
  {
    if n < 0 {
      ParseNegativeRendered(n, suffix);
    } else {
      ParseNatRendered(n, suffix);
    }
  }

  /** Skipping white space before any text gives what skipping it in that text gives. */
  lemma {:induction false} TrimStartSkips(w: string, x: string)
    requires AllWhiteSpace(w)
    ensures TrimStart(w + x) == TrimStart(x)
  {
    if w == [] {
      assert w + x == x;
    } else {
      assert (w + x)[0] == w[0];
      assert (w + x)[1..] == w[1..] + x;
      TrimStartSkips(w[1..], x);
    }
  }

  /** Leading white space never changes what `parseInt` reads. */
  lemma {:induction false} ParseIntSkipsWhiteSpace(w: string, x: string)
    requires AllWhiteSpace(w)
    ensures ParseInt(w + x) == ParseInt(x)
  {
    TrimStartSkips(w, x);
  }

  /** After white space, the signed reader sees the text from its first other
      character on. */
  lemma {:induction false} ParseIntAfterWhiteSpace(w: string, y: string)
    requires AllWhiteSpace(w)
    requires y != [] && !IsJsWhiteSpace(y[0])
    ensures ParseInt(w + y) == ParseSigned(y)
  {
    TrimStartSkips(w, y);
    TrimStartStops(y);
  }

  /** After white space, a run of decimal digits (leading zeros allowed) is read as
      its value, whatever ending follows. */
  lemma {:induction false} ParseIntDecimal(w: string, z: string, e: string)
    requires AllWhiteSpace(w)
    requires z != [] && forall i :: 0 <= i < |z| ==> '0' <= z[i] <= '9'
    requires DecimalEnding(z, e)
    ensures ParseInt(w + z + e) == Some(DigitsValue(z, 10))
  {
    var digits := z + e;
    ParseMagnitudeDecimal(z, e);
    assert w + z + e == w + digits;
    ParseIntAfterWhiteSpace(w, digits);
  }

  /** After white space, `+` and a run of decimal digits is read as the value. */
  lemma {:induction false} ParseIntPlusDecimal(w: string, z: string, e: string)
    requires AllWhiteSpace(w)
    requires z != [] && forall i :: 0 <= i < |z| ==> '0' <= z[i] <= '9'
    requires DecimalEnding(z, e)
    ensures ParseInt(w + "+" + z + e) == Some(DigitsValue(z, 10))
  {
    var digits := z + e;
    ParseMagnitudeDecimal(z, e);
    assert w + "+" + z + e == w + ("+" + digits);
    ParseIntAfterWhiteSpace(w, "+" + digits);
    assert ("+" + digits)[1..] == digits;
  }

  /** After white space, `-` and a run of decimal digits is read as the negated value,
      whatever ending follows. */
  lemma {:induction false} ParseIntNegativeDecimal(w: string, z: string, e: string)
    requires AllWhiteSpace(w)
    requires z != [] && forall i :: 0 <= i < |z| ==> '0' <= z[i] <= '9'
    requires DecimalEnding(z, e)
    ensures ParseInt(w + "-" + z + e) == Some(-(DigitsValue(z, 10) as int))
  {
    var y := "-" + (z + e);
    assert y[0] == '-' && y[1..] == z + e;
    ParseMagnitudeDecimal(z, e);
    assert ParseSigned(y) == Some(-(DigitsValue(z, 10) as int));
    assert w + "-" + z + e == w + y;
    ParseIntAfterWhiteSpace(w, y);
  }

  /** Text that, after white space, starts with neither a sign nor a decimal digit is
      `NaN`. */
  lemma {:induction false} ParseIntNoNumber(w: string, x: string)
    requires AllWhiteSpace(w)
    requires x == [] || (!IsJsWhiteSpace(x[0]) && x[0] != '+' && x[0] != '-' && DigitValue(x[0]) >= 10)
    ensures ParseInt(w + x) == None
  {
    ParseIntSkipsWhiteSpace(w, x);
    if x != [] {
      TrimStartStops(x);
    }
    ParseMagnitudeNoDigit(x);
  }

  /** The markers the page writes: each ends the number before it. */
  predicate IsMarker(s: string) {
    s == "+" || s == "%" || s == "/7" || s == ""
  }

  /** A counter whose text is already a number with one of the markers ends its
      animation showing exactly the text it started with. */
  lemma {:induction false} FinalFrameRestoresText(n: int, marker: string, elapsed: int)
    requires IsMarker(marker)
    requires elapsed >= Duration
    ensures FrameText(IntToString(n) + marker, ParseInt(IntToString(n) + marker), elapsed)
            == IntToString(n) + marker
  {
    var text := IntToString(n) + marker;
    MarkerIsOwnSuffix(marker);
    assert Suffix(text) == marker by {
      SuffixFixedPoint(Some(n), marker);
    }
    ParseRendered(n, marker);
    assert FrameValue(ParseInt(text), elapsed) == Some(n);
  }

  /** Drawing a frame over the text an earlier frame wrote gives the same text as
      drawing it over the original: the marker survives every redraw. */
  lemma {:induction false} RedrawStable(text: string, target: Option<int>, e1: int, e2: int)
    ensures FrameText(FrameText(text, target, e1), target, e2) == FrameText(text, target, e2)
  {
    SuffixFixedPoint(FrameValue(target, e1), text);
  }

  /** The chain of `updateCounter` frames for a parsed `target`: each entry of `frames`
      (milliseconds since the start) redraws the text shown; a frame whose progress has
      reached 1 requests no further frame. Returns the text shown at the end and the
      number of frames drawn. */
  method RunFrames(text: string, target: Option<int>, frames: seq<int>) returns (shown: string, drawn: nat)
    ensures drawn <= |frames|
    ensures drawn == 0 <==> frames == []
    ensures drawn == 0 ==> shown == text
    ensures drawn > 0 ==> shown == Render(FrameValue(target, frames[drawn - 1])) + Suffix(text)
    ensures forall k :: 0 <= k < drawn - 1 ==> Continues(frames[k])
    ensures drawn < |frames| ==> !Continues(frames[drawn - 1])
  {
    shown, drawn := text, 0;
    if frames == [] {
      return;
    }
    ghost var marker := Suffix(text);
    shown, drawn := FrameText(shown, target, frames[0]), 1;
    while drawn < |frames| && Continues(frames[drawn - 1])
      invariant 1 <= drawn <= |frames|
      invariant forall k :: 0 <= k < drawn - 1 ==> Continues(frames[k])
      invariant shown == Render(FrameValue(target, frames[drawn - 1])) + marker
    {
      SuffixFixedPoint(FrameValue(target, frames[drawn - 1]), text);
      shown, drawn := FrameText(shown, target, frames[drawn]), drawn + 1;
    }
  }

  /** A counter coming into view: its target is read once from the text it shows,
      then the frames run. */
  method Animate(text: string, frames: seq<int>) returns (shown: string, drawn: nat)
    ensures drawn <= |frames| && Suffix(shown) == Suffix(text)
    ensures drawn > 0 ==> shown == Render(FrameValue(ParseInt(text), frames[drawn - 1])) + Suffix(text)
    ensures (exists k :: 0 <= k < |frames| && !Continues(frames[k])) ==>
              shown == Render(ParseInt(text)) + Suffix(text)
  {
    var target := ParseInt(text);
    shown, drawn := RunFrames(text, target, frames);
    if drawn > 0 {
      SuffixFixedPoint(FrameValue(target, frames[drawn - 1]), text);
    }
    if k :| 0 <= k < |frames| && !Continues(frames[k]) {
      assert drawn > 0 && !Continues(frames[drawn - 1]);
    }
  }
}

=== FILE: header.dfy ===
/** `initHeaderScroll` (js/main.js): the header's inline style reacts to the scroll
    position. */
module Header {

  /** `scrollY` above which the header gets its shadow. */
  const ShadowThreshold: int := 100

  /** The two inline properties the scroll handler writes: `pinned` is
      `transform: translateY(0)`, `shadow` is a box shadow other than `none`. */
  datatype HeaderStyle = HeaderStyle(pinned: bool, shadow: bool)

  /** Before any scroll event no inline style is set. */
  const Unstyled := HeaderStyle(false, false)

  /** One scroll event at `scrollY`. Below the threshold only the shadow is cleared;
      the transform, once written, is never taken back. */
  function OnScroll(h: HeaderStyle, scrollY: int): (r: HeaderStyle)
    ensures r.shadow <==> scrollY > ShadowThreshold
    ensures r.pinned <==> h.pinned || scrollY > ShadowThreshold
  {
    if scrollY > ShadowThreshold then HeaderStyle(true, true) else h.(shadow := false)
  }

  /** The style after a run of scroll events. */
  function AfterScrolls(h: HeaderStyle, positions: seq<int>): (r: HeaderStyle)
    ensures h.pinned ==> r.pinned
    ensures positions != [] && r.shadow ==> r.pinned
  {
    if positions == [] then h
    else OnScroll(AfterScrolls(h, positions[..|positions| - 1]), positions[|positions| - 1])
  }

  /** Only the last scroll position decides the shadow, and the header is pinned
      exactly when it was already or some position passed the threshold. */
  lemma {:induction false} AfterScrollsState(h: HeaderStyle, positions: seq<int>)
    requires positions != []
    ensures AfterScrolls(h, positions).shadow <==> positions[|positions| - 1] > ShadowThreshold
    ensures AfterScrolls(h, positions).pinned <==>
              h.pinned || exists i :: 0 <= i < |positions| && positions[i] > ShadowThreshold
  {
    var init := positions[..|positions| - 1];
    if init != [] {
      AfterScrollsState(h, init);
      assert forall i :: 0 <= i < |init| ==> init[i] == positions[i];
    }
  }

  /** From page load: the header never has a shadow without being pinned, and it is
      pinned exactly when some scroll position has passed the threshold. */
  lemma PageLoadHeader(positions: seq<int>)
    ensures AfterScrolls(Unstyled, positions).shadow ==> AfterScrolls(Unstyled, positions).pinned
    ensures AfterScrolls(Unstyled, positions).pinned <==>
              exists i :: 0 <= i < |positions| && positions[i] > ShadowThreshold
  {
    if positions != [] {
      AfterScrollsState(Unstyled, positions);
    }
  }
}

=== FILE: optional.dfy ===
/** The value-or-absence wrapper shared by the other modules: a missing saved theme,
    a counter text that `parseInt` cannot read. */
module Optional {

  datatype Option<T> = None | Some(value: T)
}

=== FILE: reveal.dfy ===
/** `initScrollAnimations` (js/main.js): an intersection observer adds the class
    `animate-in` to every observed element that comes into view, and when that element
    is the services grid it schedules the same class on each of its cards, 150 ms
    apart in document order. */
module Reveal {

  /** Milliseconds between two consecutive service cards. */
  const StaggerStep: nat := 150

  /** An observed element: a `.section`, or the `.services-grid` container with the
      number of `.service-card` elements it holds. */
  datatype Target = Target(isServicesGrid: bool, cardCount: nat)

  /** One `IntersectionObserverEntry`: which observed element, and whether it is in view. */
  datatype Entry = Entry(target: nat, isIntersecting: bool)

  /** A pending `setTimeout` that will add `animate-in` to card `card` of the grid
      `grid` after `delay` milliseconds. */
  datatype Timer = Timer(grid: nat, card: nat, delay: nat)

  /** `index * 150`: the delay of a card. */
  function StaggerDelay(index: nat): (d: nat)
    ensures d % StaggerStep == 0 && d / StaggerStep == index
  {
    index * StaggerStep
  }

  /** The timers the callback starts for a grid with `count` cards, in document order. */
  function GridTimers(grid: nat, count: nat): (ts: seq<Timer>)
    ensures |ts| == count
  {
    seq(count, i requires 0 <= i < count => Timer(grid, i, StaggerDelay(i)))
  }

  /** Every entry names an element the observer watches. */
  predicate Observed(targets: seq<Target>, entries: seq<Entry>) {
    forall j :: 0 <= j < |entries| ==> entries[j].target < |targets|
  }

  /** The timers a batch of entries starts, in the order the callback visits them. */
  function Scheduled(targets: seq<Target>, entries: seq<Entry>): (ts: seq<Timer>)
    requires Observed(targets, entries)
    ensures forall t :: t in ts ==> t.delay == StaggerDelay(t.card)
  {
    if entries == [] then []
    else
      var e := entries[|entries| - 1];
      Scheduled(targets, entries[..|entries| - 1]) +
        (if e.isIntersecting && targets[e.target].isServicesGrid
         then GridTimers(e.target, targets[e.target].cardCount)
         else [])
  }

  /** Some entry of the batch reports element `i` in view. */
  predicate ReportedInView(entries: seq<Entry>, i: nat) {
    exists j :: 0 <= j < |entries| && entries[j].target == i && entries[j].isIntersecting
  }

  /** One more entry reports an element in view exactly when the earlier entries did
      or the new entry does. */
  lemma ReportedStep(entries: seq<Entry>, j: nat)
    requires j < |entries|
    ensures forall i: nat :: ReportedInView(entries[..j + 1], i) <==>
              ReportedInView(entries[..j], i) || (entries[j].target == i && entries[j].isIntersecting)
  {
    forall i: nat
      ensures ReportedInView(entries[..j + 1], i) ==>
                ReportedInView(entries[..j], i) || (entries[j].target == i && entries[j].isIntersecting)
    {
      if ReportedInView(entries[..j + 1], i) {
        var k :| 0 <= k < j + 1 && entries[..j + 1][k].target == i && entries[..j + 1][k].isIntersecting;
        if k < j {
          assert entries[..j][k] == entries[k];
        }
      }
    }
    forall i: nat | ReportedInView(entries[..j], i)
      ensures ReportedInView(entries[..j + 1], i)
    {
      var k :| 0 <= k < j && entries[..j][k].target == i && entries[..j][k].isIntersecting;
      assert entries[..j + 1][k] == entries[k];
    }
    assert entries[..j + 1][j] == entries[j];
    if entries[j].isIntersecting {
      assert ReportedInView(entries[..j + 1], entries[j].target);
    }
  }

  /** The observer callback. `revealed[i]` says whether element `i` has the class
      `animate-in`. The class is only ever added, exactly to the elements some entry
      reports in view, and the grid's card timers are started for each such report. */
  method OnIntersection(targets: seq<Target>, revealed: seq<bool>, entries: seq<Entry>)
    returns (after: seq<bool>, timers: seq<Timer>)
    requires |revealed| == |targets|
    requires Observed(targets, entries)
    ensures |after| == |revealed|
    ensures forall i :: 0 <= i < |after| && revealed[i] ==> after[i]
    ensures forall i :: 0 <= i < |after| ==> (after[i] <==> revealed[i] || ReportedInView(entries, i))
    ensures timers == Scheduled(targets, entries)
  {
    after, timers := revealed, [];
    for j := 0 to |entries|
      invariant |after| == |revealed|
      invariant forall i :: 0 <= i < |after| ==> (after[i] <==> revealed[i] || ReportedInView(entries[..j], i))
      invariant timers == Scheduled(targets, entries[..j])
    {
      var e := entries[j];
      ReportedStep(entries, j);
      assert entries[..j + 1][..j] == entries[..j];
      assert Scheduled(targets, entries[..j + 1]) == Scheduled(targets, entries[..j]) +
        (if e.isIntersecting && targets[e.target].isServicesGrid
         then GridTimers(e.target, targets[e.target].cardCount)
         else []);
      if e.isIntersecting {
        after := after[e.target := true];
        if targets[e.target].isServicesGrid {
          timers := timers + GridTimers(e.target, targets[e.target].cardCount);
        }
      }
    }
    assert entries[..|entries|] == entries;
  }

  /** Every started timer belongs to a services grid that some entry reported in view,
      names one of its cards, and waits 150 ms per card before it. */
  lemma {:induction false} ScheduledTimersValid(targets: seq<Target>, entries: seq<Entry>)
    requires Observed(targets, entries)
    ensures forall t :: t in Scheduled(targets, entries) ==>
              t.grid < |targets| && targets[t.grid].isServicesGrid &&
              t.card < targets[t.grid].cardCount && t.delay == t.card * StaggerStep &&
              ReportedInView(entries, t.grid)
  {
    if entries != [] {
      var init := entries[..|entries| - 1];
      ScheduledTimersValid(targets, init);
      forall t | t in Scheduled(targets, entries)
        ensures ReportedInView(entries, t.grid)
      {
        if t in Scheduled(targets, init) {
          var j :| 0 <= j < |init| && init[j].target == t.grid && init[j].isIntersecting;
          assert entries[j] == init[j];
        }
      }
    }
  }

  /** Every card of a services grid that some entry reports in view gets its timer,
      with that card's stagger delay. */
  lemma {:induction false} ScheduledComplete(targets: seq<Target>, entries: seq<Entry>, j: nat, i: nat)
    requires Observed(targets, entries)
    requires j < |entries| && entries[j].isIntersecting && targets[entries[j].target].isServicesGrid
    requires i < targets[entries[j].target].cardCount
    ensures Timer(entries[j].target, i, StaggerDelay(i)) in Scheduled(targets, entries)
  {
    var init := entries[..|entries| - 1];
    if j < |entries| - 1 {
      assert init[j] == entries[j];
      ScheduledComplete(targets, init, j, i);
    } else {
      var g := entries[j].target;
      assert GridTimers(g, targets[g].cardCount)[i] == Timer(g, i, StaggerDelay(i));
    }
  }

  /** Within one grid the delays strictly increase in document order, by 150 ms from
      one card to the next, starting at 0. */
  lemma StaggerOrdered(grid: nat, count: nat)
    ensures count > 0 ==> GridTimers(grid, count)[0].delay == 0
    ensures forall i :: 0 <= i < count - 1 ==>
              GridTimers(grid, count)[i + 1].delay == GridTimers(grid, count)[i].delay + StaggerStep
    ensures forall i, j :: 0 <= i < j < count ==>
              GridTimers(grid, count)[i].delay < GridTimers(grid, count)[j].delay
  {
  }

  /** Which cards of a grid with `count` cards have been revealed `t` milliseconds
      after the grid came into view. */
  function CardsShownAt(count: nat, t: int): (shown: seq<bool>)
    ensures |shown| == count
  {
    seq(count, i requires 0 <= i < count => StaggerDelay(i) <= t)
  }

  /** A card is revealed exactly once its own delay has passed, the revealed cards are always a prefix
      of the grid in document order, that prefix only grows with time, and after
      `(count - 1) * 150` ms it is the whole grid. */
  lemma {:induction false} CardsRevealInOrder(count: nat, t1: int, t2: int)
    requires t1 <= t2
    ensures forall i :: 0 <= i < count ==> (CardsShownAt(count, t1)[i] <==> StaggerDelay(i) <= t1)
    ensures forall i, j :: 0 <= i < j < count && CardsShownAt(count, t1)[j] ==> CardsShownAt(count, t1)[i]
    ensures forall i :: 0 <= i < count && CardsShownAt(count, t1)[i] ==> CardsShownAt(count, t2)[i]
    ensures t1 >= (count - 1) * StaggerStep ==> forall i :: 0 <= i < count ==> CardsShownAt(count, t1)[i]
  {
    forall i, j | 0 <= i < j < count
      ensures StaggerDelay(i) <= StaggerDelay(j)
    {
      DelayMonotone(i, j);
    }
    forall i | 0 <= i < count && t1 >= (count - 1) * StaggerStep
      ensures StaggerDelay(i) <= t1
    {
      DelayMonotone(i, count - 1);
    }
  }

  lemma DelayMonotone(i: nat, j: nat)
    requires i <= j
    ensures StaggerDelay(i) <= StaggerDelay(j)
  {
  }
}

=== FILE: slider.dfy ===
/** The hero slider of `initHeroSlider` (js/main.js): one index `currentSlide` over a
    fixed deck of four slides, a horizontal offset for the slide strip and one
    navigation dot per `.nav-dot` element in the markup. */
module HeroSlider {

  /** `totalSlides` in the source. */
  const TotalSlides: int := 4

  /** JavaScript's `a % totalSlides`: the remainder of division truncated toward zero,
      so it takes the sign of the dividend (`-5 % 4 == -1`), unlike Dafny's `%`. */
  function JsRemainder(a: int): (r: int)
    ensures -TotalSlides < r < TotalSlides
    ensures a >= 0 ==> r >= 0
    ensures a <= 0 ==> r <= 0
  {
    if a >= 0 then a % TotalSlides else -((-a) % TotalSlides)
  }

  /** The remainder differs from the dividend by a multiple of the deck size. */
  lemma JsRemainderCongruent(a: int)
    ensures (a - JsRemainder(a)) % TotalSlides == 0
  {
  }

  predicate InRange(i: int) {
    0 <= i < TotalSlides
  }

  /** The index `nextSlide` moves to. */
  function NextIndex(i: int): (r: int)
    ensures InRange(i) ==> r == if i == TotalSlides - 1 then 0 else i + 1
    ensures i >= -1 ==> InRange(r)
  {
    JsRemainder(i + 1)
  }

  /** The index `previousSlide` moves to. */
  function PreviousIndex(i: int): (r: int)
    ensures InRange(i) ==> r == if i == 0 then TotalSlides - 1 else i - 1
    ensures i >= 1 - TotalSlides ==> InRange(r)
  {
    JsRemainder(i - 1 + TotalSlides)
  }

  /** The index after `n` calls of `nextSlide` starting from `i`. */
  function Advance(i: int, n: nat): (r: int)
    ensures InRange(i) ==> InRange(r)
    ensures n > 0 && i >= -1 ==> InRange(r)
  {
    if n == 0 then i else NextIndex(Advance(i, n - 1))
  }

  /** One more step forward from `x` moves its remainder on by one, wrapping at the
      deck size. */
  lemma WrapStep(x: nat)
    ensures NextIndex(x % TotalSlides) == (x + 1) % TotalSlides
  {
    var r := x % TotalSlides;
    assert x == (x / TotalSlides) * TotalSlides + r;
    if r == TotalSlides - 1 {
      assert x + 1 == (x / TotalSlides + 1) * TotalSlides;
    } else {
      assert x + 1 == (x / TotalSlides) * TotalSlides + (r + 1);
    }
  }

  /** Starting from the initial slide, `n` calls of `nextSlide` give index `n mod 4`. */
  lemma {:induction false} AdvanceFromFirst(n: nat)
    ensures Advance(0, n) == n % TotalSlides
  {
    if n > 0 {
      AdvanceFromFirst(n - 1);
      WrapStep(n - 1);
    }
  }

  /** `previousSlide` undoes `nextSlide` on every index the deck can hold. */
  lemma PreviousUndoesNext(i: int)
    requires InRange(i)
    ensures PreviousIndex(NextIndex(i)) == i
  {
  }

  /** `nextSlide` undoes `previousSlide` on every index the deck can hold. */
  lemma NextUndoesPrevious(i: int)
    requires InRange(i)
    ensures NextIndex(PreviousIndex(i)) == i
  {
  }

  /** After an out-of-range `goToSlide` the two commands are no longer inverse:
      from 5, `nextSlide` gives 2 and `previousSlide` then gives 1. */
  lemma OutOfRangeBreaksInverse()
    ensures NextIndex(5) == 2 && PreviousIndex(NextIndex(5)) == 1
  {
  }

  /** Because JavaScript's `%` keeps the dividend's sign, `nextSlide` from an index
      below -1 whose successor is not a multiple of four stays negative. */
  lemma NextKeepsNegative(i: int)
    requires i < -1 && (i + 1) % TotalSlides != 0
    ensures NextIndex(i) < 0
  {
  }

  /** Dots that mirror index `k`: dot `i` is active exactly when `i == k`. */
  ghost predicate Mirrors(dots: seq<bool>, k: int) {
    forall i :: 0 <= i < |dots| ==> dots[i] == (i == k)
  }

  /** How many dots carry the `active` class. */
  function CountActive(dots: seq<bool>): nat {
    if dots == [] then 0
    else CountActive(dots[..|dots| - 1]) + (if dots[|dots| - 1] then 1 else 0)
  }

  /** Dots mirroring `k` have exactly one active dot when `k` names a dot, none otherwise. */
  lemma {:induction false} MirrorsCount(dots: seq<bool>, k: int)
    requires Mirrors(dots, k)
    ensures CountActive(dots) == if 0 <= k < |dots| then 1 else 0
  {
    if dots != [] {
      var init := dots[..|dots| - 1];
      assert Mirrors(init, k) by {
        forall i | 0 <= i < |init| ensures init[i] == (i == k) {
          assert init[i] == dots[i];
        }
      }
      MirrorsCount(init, k);
    }
  }

  /** The slider's mutable state: the closure variable `currentSlide`, the
      `translateX` percentage of the slide strip and the `active` class of each dot. */
  class Slider {
    var currentSlide: int
    var offset: int
    const dots: array<bool>

    /** What `updateSlider` establishes: the strip is shifted by `-currentSlide * 100`
        percent and the dots mirror the index. */
    ghost predicate Valid()
      reads this, dots
    {
      offset == -currentSlide * 100 && Mirrors(dots[..], currentSlide)
    }

    /** `initHeroSlider` sets `currentSlide = 0` but does not call `updateSlider`:
        the dots keep the classes the markup gave them and the strip is not shifted. */
    constructor (markup: seq<bool>)
      ensures fresh(dots) && dots[..] == markup
      ensures currentSlide == 0 && offset == 0
      ensures Valid() <==> Mirrors(markup, 0)
    {
      currentSlide := 0;
      offset := 0;
      dots := new bool[|markup|](i requires 0 <= i < |markup| => markup[i]);
    }

    /** `updateSlider`: recompute the offset and toggle every dot. */
    method Update()
      modifies this`offset, dots
      ensures Valid()
      ensures currentSlide == old(currentSlide)
      ensures CountActive(dots[..]) == if 0 <= currentSlide < dots.Length then 1 else 0
    {
      offset := -currentSlide * 100;
      for i := 0 to dots.Length
        invariant offset == -currentSlide * 100
        invariant forall j :: 0 <= j < i ==> dots[j] == (j == currentSlide)
      {
        dots[i] := i == currentSlide;
      }
      MirrorsCount(dots[..], currentSlide);
    }

    /** `nextSlide`: step forward with wrap-around, then redraw. */
    method Next()
      modifies this, dots
      ensures currentSlide == NextIndex(old(currentSlide))
      ensures Valid()
      ensures InRange(old(currentSlide)) ==> InRange(currentSlide)
    {
      currentSlide := NextIndex(currentSlide);
      Update();
    }

    /** `previousSlide`: step backward with wrap-around, then redraw. */
    method Previous()
      modifies this, dots
      ensures currentSlide == PreviousIndex(old(currentSlide))
      ensures Valid()
      ensures InRange(old(currentSlide)) ==> InRange(currentSlide)
    {
      currentSlide := PreviousIndex(currentSlide);
      Update();
    }

    /** `goToSlide`: jump to `index` with no range check, then redraw. With four dots,
        exactly one dot is active afterwards precisely when `index` is in range. */
    method GoTo(index: int)
      modifies this, dots
      ensures currentSlide == index
      ensures Valid()
      ensures offset == -index * 100
      ensures dots.Length == TotalSlides ==> (CountActive(dots[..]) == 1 <==> InRange(index))
    {
      currentSlide := index;
      Update();
    }
  }

  /** `k` firings of the five-second `setInterval` timer: from any state, the index
      is the one `k` successors away, and after at least one tick the view mirrors it. */
  method Ticks(s: Slider, k: nat)
    modifies s, s.dots
    ensures s.currentSlide == Advance(old(s.currentSlide), k)
    ensures k > 0 ==> s.Valid()
  {
    for n := 0 to k
      invariant s.currentSlide == Advance(old(s.currentSlide), n)
      invariant n > 0 ==> s.Valid()
    {
      s.Next();
    }
  }

  /** Five timer ticks from the first slide after a manual `previousSlide` come back
      to the first slide. */
  method PreviousThenTicks(s: Slider)
    requires s.currentSlide == 0
    modifies s, s.dots
    ensures s.currentSlide == 0
    ensures s.Valid()
  {
    s.Previous();
    Ticks(s, 5);
    assert Advance(TotalSlides - 1, 5) == 0 by {
      assert Advance(TotalSlides - 1, 1) == 0;
      assert Advance(TotalSlides - 1, 2) == 1;
      assert Advance(TotalSlides - 1, 3) == 2;
      assert Advance(TotalSlides - 1, 4) == 3;
    }
  }
}

=== FILE: theme.dfy ===
/** Theme management (top of js/main.js): the `data-theme` attribute of the body and
    the `theme` entry of local storage. */
module Theme {
  import opened Optional

  const Dark: string := "dark"
  const Light: string := "light"

  /** `localStorage.getItem('theme') || 'dark'`: a missing entry and an empty string
      (which JavaScript treats as false) both fall back to dark. */
  function InitialTheme(saved: Option<string>): (t: string)
    ensures t != ""
    ensures saved.Some? && saved.value != "" ==> t == saved.value
    ensures saved.None? || saved.value == "" ==> t == Dark
  {
    match saved
    case None => Dark
    case Some(s) => if s == "" then Dark else s
  }

  /** The click handler's choice: dark becomes light, anything else becomes dark. */
  function Toggled(current: string): (t: string)
    ensures t == Dark || t == Light
    ensures t == Light <==> current == Dark
  {
    if current == Dark then Light else Dark
  }

  /** Toggling twice gives back either of the two themes the site defines. */
  lemma ToggleTwice(current: string)
    requires current == Dark || current == Light
    ensures Toggled(Toggled(current)) == current
  {
  }

  /** Any other attribute value (a hand-edited storage entry) is normalised: one toggle
      gives dark, a second gives light, never the original value. */
  lemma ToggleNormalises(current: string)
    requires current != Dark && current != Light
    ensures Toggled(current) == Dark && Toggled(Toggled(current)) == Light
  {
  }

  /** What a toggle stores is what the next page load shows. */
  lemma ToggleSurvivesReload(current: string)
    ensures InitialTheme(Some(Toggled(current))) == Toggled(current)
  {
  }

  /** The body attribute and the storage entry the page owns. */
  class ThemeController {
    var attribute: string
    var stored: Option<string>

    /** Page load: read storage and set the attribute; storage is not written. */
    constructor (saved: Option<string>)
      ensures attribute == InitialTheme(saved)
      ensures stored == saved
    {
      attribute := InitialTheme(saved);
      stored := saved;
    }

    /** The `themeToggle` click handler: the new theme goes to both the attribute and
        storage. */
    method Toggle()
      modifies this
      ensures attribute == Toggled(old(attribute))
      ensures stored == Some(attribute)
    {
      var newTheme := Toggled(attribute);
      attribute := newTheme;
      stored := Some(newTheme);
    }
  }
}
